=== FILE: README.md ===
# Playground parameters, linked datasets and provider logs — a Dafny model

This project models the small, pure data transformations of the Latitude LLM
platform's web app and core package:

- the playground-parameters hook: per-document input state in local storage,
  the updaters that rewrite one slot of it, the conversion of inputs to prompt
  parameters, the mapping of a log's parameters onto history inputs, and the
  choice of the linked-dataset record a document shows;
- the versioned-dataset helpers: column list, column index and row count of a
  V1 (file-based) or V2 (column-based) dataset;
- the linked-dataset service: the version-specific record it saves, the V2 row
  id check, and the one-key update of the document's linked-dataset column;
- the dataset-rows store: the SWR cache key of a rows query and the
  serialisation of server rows into cells in column order;
- the Vercel AI SDK provider rules that push message-level provider metadata
  into every content part;
- the chain-step response built from an AI result, the provider-log record built
  from a step, and the response a provider log shows;
- the SDK's choice of promptl adapter for a provider;
- the transaction wrapper's classification of database errors and its rule for
  running side effects.

Each module follows one concern of the source, usually one file.
`ProviderLogs` covers both the provider-log record built from a step
(saveProviderLog.ts) and the response a log shows (buildResponse.ts).
`Wrappers` (Option), `Json` (JavaScript
values and their truthiness), `Datasets` (shared domain records) and `Messages`
(chat message types) hold the types the modules share. JavaScript objects with
optional keys are datatypes with `Option` fields. `None` stands for an absent
key or an `undefined`/`null` value.

Foreign functions are parameters with no behaviour assumed unless a lemma
states it. These are `JSON.parse` (`parse`), `JSON.stringify` (`stringify`),
the `+text` number conversion (`toNumber`), `new Date(text)` (`toDate`),
`objectToString`, `extractMessageMetadata`, `extractContentMetadata`,
`getProviderMetadataKey` (the provider `key`), `Date.now()`, `new Date()` and
`generateUUIDIdentifier`. Awaited AI SDK values are given as resolved values.

## Model

| member | source | states |
|---|---|---|
| `DocumentParameters.ConvertToParams` | apps/web/src/hooks/useDocumentParameters/index.ts:49-58 | The parameters have exactly the keys of the inputs. Each value is the JSON-parsed input value. A value that fails to parse stays the raw string, and an `undefined` value gives `undefined`. |
| `DocumentParameters.GetDocState` | apps/web/src/hooks/useDocumentParameters/index.ts:61-65 | A null old state reads as the empty state. The document is the stored entry for the key, or `EMPTY_INPUTS` when the key is missing. |
| `DocumentParameters.GetValue` | apps/web/src/hooks/useDocumentParameters/index.ts:67-75 | A string parameter is kept verbatim. Unless stringify throws, `includeInPrompt` holds exactly when the parameter is not `undefined`. Other values carry their JSON text, or no value when stringify yields `undefined`. A throw gives an empty, excluded value. |
| `DocumentParameters.UndefinedParameterIsExcluded` | apps/web/src/hooks/useDocumentParameters/index.ts:67-71 | With the standard stringify, an `undefined` parameter becomes an input with no value and `includeInPrompt` false. |
| `DocumentParameters.LogParametersToInputs` | apps/web/src/hooks/useDocumentParameters/index.ts:77-92 | Undefined or key-less parameters give `undefined`. Otherwise the result has the key set of the current inputs, not of the parameters, and each entry is `getValue` of the logged value. |
| `DocumentParameters.MapLogParametersToInputs` | apps/web/src/hooks/useDocumentParameters/index.ts:84-91 | Implements the `reduce` as a loop over the keys and proves the same contract. |
| `DocumentParameters.RestorableValueRoundTrips` | apps/web/src/hooks/useDocumentParameters/index.ts:49-75 | A logged value comes back unchanged through `getValue` and then the input-to-parameter conversion. This needs a string that does not parse as JSON, or another value whose JSON text parses back to it. |
| `DocumentParameters.HistoryParametersRoundTrip` | apps/web/src/hooks/useDocumentParameters/index.ts:49-92 | Mapping a log's parameters onto history inputs and converting them back gives the logged value for every input key, when each value is restorable. |
| `DocumentParameters.JsonLookingStringChangesType` | apps/web/src/hooks/useDocumentParameters/index.ts:52-53 | A logged string that parses as JSON comes back as the parsed value, so the round trip is lossy for such strings. |
| `DocumentParameters.SetInputs` | apps/web/src/hooks/useDocumentParameters/index.ts:181-196 | Only the given source's inputs of the document at the key change. Other documents, the other sources' inputs, the selected source, the history log and the other dataset fields stay the same. |
| `DocumentParameters.SetSource` | apps/web/src/hooks/useDocumentParameters/index.ts:247-256 | Only the `source` of the document at the key changes. Every slot and every other document is kept. |
| `DocumentParameters.SetHistoryLog` | apps/web/src/hooks/useDocumentParameters/index.ts:269-281 | Only `history.logUuid` changes. The history inputs, the source, the other slots and the other documents are kept. |
| `DocumentParameters.SetInputsThenRead` | apps/web/src/hooks/useDocumentParameters/index.ts:181-196 | Reading a document back after `setInputs` yields the new inputs for that source. |
| `DocumentParameters.SetSourceLastWins` | apps/web/src/hooks/useDocumentParameters/index.ts:247-256 | Two `setSource` updates in a row equal the last one alone. |
| `DocumentParameters.SetSourceCommutesWithSetInputs` | apps/web/src/hooks/useDocumentParameters/index.ts:181-256 | Selecting a source and replacing a slot's inputs commute. |
| `DocumentParameters.UpdatesOfDifferentDocumentsCommute` | apps/web/src/hooks/useDocumentParameters/index.ts:181-281 | Any two updates (`setInputs`, `setSource` or `setHistoryLog`, in any combination) to two different document keys commute. |
| `DocumentParameters.GetLinkedDataset` | apps/web/src/hooks/useDocumentParameters/index.ts:96-136 | With no dataset id, the result is the version's empty record (`rowIndex` 0 for V1, `datasetRowId` 0 for V2). With an empty stored column, it is the local inputs and mapping at index 0. Otherwise it is the stored entry for the dataset, or the empty record when that entry is absent. Both versions are keyed on `datasetId`. |
| `DocumentParameters.GetLinkedDatasetForVersion` | apps/web/src/hooks/useDocumentParameters/index.ts:96-136 | The same case split, keyed on the dataset the document is assigned for the version: `datasetId` for V1, `datasetV2Id` for V2. For V1 it equals the lookup as written. |
| `VersionedDatasets.ColumnNames` | apps/web/src/hooks/useVersionedDatasets.ts:18 | The names of the columns, one per column, in column order. |
| `VersionedDatasets.BuildColumnList` | apps/web/src/hooks/useVersionedDatasets.ts:10-20 | No dataset gives []. `fileMetadata` headers come first, even when columns are present. Otherwise the result is the column names in order, and with neither field it is []. |
| `VersionedDatasets.GetColumnIndex` | apps/web/src/hooks/useVersionedDatasets.ts:22-24 | The result is `undefined` exactly when the header is absent. Otherwise it is a position holding the header with no earlier match. |
| `VersionedDatasets.FirstOccurrenceIsReturned` | apps/web/src/hooks/useVersionedDatasets.ts:22-24 | If position i holds the header and no earlier position does, the index returned is i. |
| `VersionedDatasets.GetDatasetCount` | apps/web/src/hooks/useVersionedDatasets.ts:26-35 | No dataset gives `undefined`. A V1 dataset gives its file's row count and ignores the rows count. Otherwise the rows count is returned. |
| `LinkedDatasets.GetLinkedData` | packages/core/src/services/documents/saveLinkedDataset.ts:15-33 | V1 records exactly inputs, mapping and row index. V2 records exactly the mapping and row id, with no inputs or row index. |
| `LinkedDatasets.SaveLinkedDatasetAsWritten` | packages/core/src/services/documents/saveLinkedDataset.ts:59-100 | The save as written. It fails with 'Invalid dataset row id' exactly for V2 without a row id. Otherwise V1 writes `linkedDataset` and V2 writes `linkedDatasetAndRow`, and either way the written map is the V1 column plus the new entry. |
| `LinkedDatasets.SaveLinkedDataset` | packages/core/src/services/documents/saveLinkedDataset.ts:59-100 | It fails with 'Invalid dataset row id' exactly for V2 without a row id. V1 writes only `linkedDataset` and V2 only `linkedDatasetAndRow`. The written column is the version's own column with only the entry at the dataset id added or replaced. |
| `LinkedDatasets.ApplyUpdate` | packages/core/src/services/documents/saveLinkedDataset.ts:102-108 | The returned row has the written column replaced. The other column, the id, both dataset ids and the document uuid are unchanged. |
| `LinkedDatasets.SaveKeepsOtherColumn` | packages/core/src/services/documents/saveLinkedDataset.ts:89-100 | A save never changes the other version's column. |
| `LinkedDatasets.SaveThenGetLinkedDataset` | packages/core/src/services/documents/saveLinkedDataset.ts:78-100 | After a save for the dataset the document is assigned for the version, the version-keyed lookup returns exactly the saved record, for V1 and V2. |
| `LinkedDatasets.SaveThenGetLinkedDatasetV1` | apps/web/src/hooks/useDocumentParameters/index.ts:105-135 | For V1, the lookup as written returns exactly the record saved for the document's `datasetId`. |
| `LinkedDatasets.V2LinkIgnoredByLookup` | apps/web/src/hooks/useDocumentParameters/index.ts:105-108 | On a document assigned V2 dataset 3 and no `datasetId`, after a V2 save of row 7, the lookup as written shows the empty V2 record while the version-keyed lookup shows row 7. |
| `LinkedDatasets.AsWrittenV2SaveStartsFromV1Column` | packages/core/src/services/documents/saveLinkedDataset.ts:59-64 | The as-written V2 save writes `linkedDatasetAndRow` with the keys of the V1 column plus the dataset id. |
| `LinkedDatasets.AsWrittenLosesV2Entries` | packages/core/src/services/documents/saveLinkedDataset.ts:59-87 | On a concrete document, the as-written V2 save drops an existing V2 entry and copies in a V1 entry. The corrected save does neither. |
| `DatasetRows.Compact` | apps/web/src/stores/datasetRows.ts:31-37 | lodash `compact` keeps no falsy element and never lengthens the list. |
| `DatasetRows.CompactKeepsExactlyTruthy` | apps/web/src/stores/datasetRows.ts:31-37 | An element is in the compacted list exactly when it is in the input and truthy. |
| `DatasetRows.CompactAppend` | apps/web/src/stores/datasetRows.ts:31-37 | `compact` of a concatenation is the concatenation of the two compacted halves, so the truthy elements keep their order. |
| `DatasetRows.CompactOfFive` | apps/web/src/stores/datasetRows.ts:31-37 | `compact` of five components is the truthy ones, in their order. |
| `DatasetRows.BuildDatasetRowKey` | apps/web/src/stores/datasetRows.ts:20-38 | The key starts with 'datasetRows' and has 2 to 5 elements. It contains 'withCount' exactly when counting and 'withoutCount' exactly when not. It lists datasetId, flag, page and pageSize in that order as numbers, each dropped when falsy (missing, 0, empty or NaN). |
| `DatasetRows.RowKeyDeterminesQuery` | apps/web/src/stores/datasetRows.ts:31-37 | With id, page and page size all present and non-zero, equal keys mean equal ids, flags, pages and page sizes. |
| `DatasetRows.PageAndPageSizeShareKeys` | apps/web/src/stores/datasetRows.ts:31-37 | A query with only a page and one with only an equal page size get the same key. |
| `DatasetRows.Cells` | apps/web/src/stores/datasetRows.ts:103-105 | There is one cell per column, in column order. Each cell is `rowData[identifier]`, or null when that value is missing or null. |
| `DatasetRows.SerializeRows` | apps/web/src/stores/datasetRows.ts:96-111 | Rows keep their number and order, and `rowCount` is the server count. Each row keeps its other fields, has its dates converted and drops `rowData`. Its cells follow the columns. |
| `DatasetRows.CellUnderHeader` | apps/web/src/stores/datasetRows.ts:103-105 | For a V2 dataset, the index of a header in the column list is the first column with that name. That cell of every serialised row is that column's value. |
| `VercelRules.GroupContentMetadata` | packages/core/src/services/ai/providers/rules/vercel.ts:12-53 | String content becomes one text part carrying the text and, if present, the message metadata verbatim. Array content maps each item through the extractor, preserving length and order. With message metadata, each part's metadata has only the provider key, mapping to the message metadata overlaid by the part's own, and the part's own values win. |
| `VercelRules.StringAndArrayAgreeOnProviderKey` | packages/core/src/services/ai/providers/rules/vercel.ts:23-50 | A string and its one-text-part array form carry the same fields and the same metadata under the provider key. |
| `VercelRules.MergePartIsIdempotent` | packages/core/src/services/ai/providers/rules/vercel.ts:40-50 | Merging the message metadata into an already merged part changes nothing. |
| `VercelRules.VercelSdkRules` | packages/core/src/services/ai/providers/rules/vercel.ts:55-75 | There is one output message per input message, in order. Each keeps the extracted message's role, metadata and fields, with its content grouped into parts. The other fields of the rules are unchanged. |
| `ProviderProcessor.ConvertToolCalls` | packages/core/src/services/chains/ProviderProcessor/index.ts:41-45 | Tool calls keep length and order, with id = `toolCallId`, name = `toolName` and arguments = `args`. |
| `ProviderProcessor.BuildStepTextResponse` | packages/core/src/services/chains/ProviderProcessor/index.ts:23-47 | The text response copies text, usage and uuid. Its output is the response messages when present, else []. Its tool calls are converted one for one. |
| `ProviderProcessor.BuildObjectStepResponse` | packages/core/src/services/chains/ProviderProcessor/index.ts:49-64 | The object response carries the object unchanged, its `objectToString` text, the usage and the uuid. |
| `ProviderProcessor.BuildChainStepResponse` | packages/core/src/services/chains/ProviderProcessor/index.ts:9-21 | A text result gives a text response and anything else an object response. The stream type equals the result type, and the uuid and usage pass through. |
| `ProviderLogs.BuildProviderLogDto` | packages/core/src/services/chains/ProviderProcessor/saveProviderLog.ts:8-48 | Duration is now minus the step start. Ids, provider type, source and log uuid are copied, and model, config and messages come from the conversation. A text response sets output, text and tool calls with no object. An object response sets the object with no output or text and [] tool calls. |
| `ProviderLogs.BuildProviderLogResponse` | packages/core/src/services/providerLogs/buildResponse.ts:5-12 | An output array wins, even when empty. A non-empty text comes next, and an empty one falls through. Then a truthy object. The result is null exactly when all three are falsy. |
| `ProviderLogs.ResponseOfAStep` | packages/core/src/services/providerLogs/buildResponse.ts:5-12 | Across step response, log and shown response: a text result shows its response messages (possibly none), never its text. An object result shows the object when truthy and null otherwise. |
| `Adapters.GetPromptlAdapterFromProvider` | packages/sdks/typescript/src/utils/adapters/getAdapterFromProvider.ts:9-20 | Anthropic is chosen exactly for the Anthropic provider. OpenAI, an undefined provider and every other provider get the OpenAI adapter. |
| `Transaction.ToResultError` | packages/core/src/lib/Transaction.ts:78-92 | The thrown value becomes a conflict exactly when its code is '23505', keeping the message. It becomes an unprocessable entity exactly when the code is '22P02', with message 'Invalid input' and no details. Any other code, including '25P02', or no code keeps the original error unchanged. |
| `Transaction.FireAll` | packages/core/src/lib/Transaction.ts:62-65 | Side effects run in list order, each with the result. If none throws, all run. Otherwise the run stops at the first one that throws, which is the last invoked, and its error is reported. |
| `Transaction.RunSideEffects` | packages/core/src/lib/Transaction.ts:60-71 | After the commit, the side effects run in order with the result. If none throws, all run and the result is returned. If one throws, the run stops at the first that throws and the result is its classified error. |
| `Transaction.Call` | packages/core/src/lib/Transaction.ts:38-72 | If the callback throws, no side effect runs and the classified error is returned. Otherwise, at any depth but 1 the callback's result is returned and nothing fires. At depth 1 the call ends by running the side effects, including those the callback registered, as stated for `RunSideEffects`. |
| `Transaction.OnlyOutermostFires` | packages/core/src/lib/Transaction.ts:60-66 | A call made at depth 2 fires nothing. When no side effect throws, a call made at depth 1 returns its result and fires every side effect on the list, including those its callback registered, with it. |
| `Transaction.ThrowingSideEffectStopsTheRest` | packages/core/src/lib/Transaction.ts:54-71 | In the outermost call, if side effect k is the first to throw, exactly k + 1 side effects run and the committed result is replaced by the classified error of the one that threw. |

## Left out

- React and SWR wiring: the hook bodies (`useDocumentParameters`, `useVersionedDatasets`, `useVersionDatasetRows`, `useDatasetRows`), `useCallback`/`useMemo`, local-storage access, fetchers and logging. The callbacks that are glue around the modelled updaters are left out, with their guards: `setManualInputs` and `copyDatasetInputsToManual` forward to `setInputs`; `setInput` writes one parameter into the manual or history slot and does nothing for the `dataset` source; `mapDocParametersToInputs` reads the stored state directly, not through `getDocState`, returns early when the document has no stored state or the mapping gives `undefined`, and otherwise stores the mapped history inputs; `setDataset` calls the save action. So is the choice of `inputsBySource`, which is hook plumbing.
- `onMetadataProcessed` (useDocumentParameters/index.ts:350-399) is not modelled. It recomputes the manual and history inputs, and the linked record's inputs, through `recalculateInputs`, which is not part of this model. For a V1 document with a `datasetId` whose linked record has inputs and a row index, it then re-saves the linked dataset through `setDataset`.
- The `LocalInputSource` type is not part of this model. `DocumentParameters.SetInputs` accepts every input source, which is more general than the source's callers need.
- The database update, the `Transaction.call` wrapping of the save, and the actual `db.transaction` call are abstracted. `LinkedDatasets.ApplyUpdate` stands for the row the update returns. `Transaction.Call` takes the callback's outcome, including side effects it registered on the shared list, as given. A side effect is known by identity, and what it throws when handed a result is the `throws` parameter.
- `Transaction.Call`: the source hands the callback the depth unchanged and never increments it, so a nested `Transaction.call` made with the forwarded instance also runs at depth 1 and fires the shared side-effect list itself, before the outer transaction commits. The model takes the callback's outcome as given, with no firings inside it, so it cannot show such a nested call or the outer call firing the same list again.
- The save's `prevLinkedData === undefined` check (saveLinkedDataset.ts:67-69) and the inner 'Invalid dataset version' branch (lines 98-99) cannot fire, so they are absent. The previous map is never `undefined`, and `DatasetVersion` here has exactly V1 and V2.
- JavaScript numbers are integers here: NaN (except `+text` in the row key), fractions and `-0` are not modelled. A dataset id that is NaN is not modelled either.
- `DocumentParameters.LogParametersToInputs`: a missing parameter reads as `undefined`. In the source, `params[key]` also reads keys inherited from `Object.prototype`, so an input named `constructor`, `toString` or `valueOf` that the log lacks gets a function. Its `includeInPrompt` is then true, not false. Writes go through inherited properties too: `acc[key] = …` for an input named `__proto__` calls the accumulator's prototype setter, so the source's result has no `__proto__` key and that input is missing from the history inputs. The model keeps every input key. Inherited properties are not modelled for reads or writes.
- `DocumentParameters.MapLogParametersToInputs`: the same gaps as `LogParametersToInputs`: an inherited key reads as `undefined` here, and an input named `__proto__` is kept here although the source's accumulator drops it.
- `DatasetRows.Compact`: its own contract says only that no falsy element is kept and the list never grows. That every truthy element is kept, in order, is stated by `CompactKeepsExactlyTruthy` and `CompactAppend`, which keeps the row-key proofs small.
- `LinkedDatasets.GetLinkedData`: a key that is present with value `undefined` is the same as an absent key, since both vanish in the JSON column.
- `JSON.parse`, `JSON.stringify`, `new Date`, `objectToString`, `extractMessageMetadata`, `extractContentMetadata`, `getProviderMetadataKey`, the clock and UUID generation are foreign and are parameters.
- The `Providers` enum is reduced to OpenAI, Anthropic and the other providers by name, and `LogSources` to a name. `AppliedRules` is modelled as rules, messages and config.
- The prompt compiler is left out because only its type declarations are available (packages/compiler). Only the message and content types feed the `Messages` module.
- Repositories, server actions, HTTP routes, the events dispatch table, job queues and cookie handling are thin glue around the database or network.

## Findings

| source | as written | input that shows it | evidently intended | confidence | as-written member | corrected member |
|---|---|---|---|---|---|---|
| packages/core/src/services/documents/saveLinkedDataset.ts:59-64 | `prevLinkedData` is always `document.linkedDataset ?? {}`. The version-selecting conditional on the next lines is a discarded expression statement, so a V2 save starts from the V1 column. | V2 save for dataset 3 with row id 7, on a document whose `linkedDataset` is {1: …} and whose `linkedDatasetAndRow` is {2: …}. The written V2 column is {1: …, 3: …}: entry 2 is lost and V1 entry 1 leaks in. | The previous map is the version's own column: `linkedDataset` for V1, `linkedDatasetAndRow` for V2. | high; not executed | `LinkedDatasets.SaveLinkedDatasetAsWritten`, `LinkedDatasets.AsWrittenLosesV2Entries` | `LinkedDatasets.SaveLinkedDataset`, `LinkedDatasets.SaveThenGetLinkedDataset` |
| apps/web/src/hooks/useDocumentParameters/index.ts:105-108 | `getLinkedDataset` keys both versions on `document.datasetId`. A V2 dataset is assigned through `datasetV2Id` (assignDataset.ts:25-28, read back in useSelectDataset.ts:40-41), and the V2 column is keyed by the V2 dataset id. | A document with `datasetV2Id` 3 and `datasetId` null, after a V2 save of row 7 for dataset 3. The lookup takes the no-dataset branch and shows `EMPTY_LINKED_DATASET_ROW` (row id 0), not row 7. | The V2 lookup reads `datasetV2Id`. | medium, the V2 playground is marked unfinished; not executed | `DocumentParameters.GetLinkedDataset`, `LinkedDatasets.V2LinkIgnoredByLookup` | `DocumentParameters.GetLinkedDatasetForVersion`, `LinkedDatasets.SaveThenGetLinkedDataset` |

=== FILE: adapters.dfy ===
/** Providers and the promptl adapter the TypeScript SDK picks for each. */
module Adapters {
  import opened Wrappers

  /** The `Providers` enum. Only OpenAI and Anthropic matter to the adapter
      choice; every other member is `OtherProvider` with its name. */
  datatype Provider = OpenAI | Anthropic | OtherProvider(name: string)

  datatype Adapter = OpenAIAdapter | AnthropicAdapter

  function GetPromptlAdapterFromProvider(provider: Option<Provider>): (adapter: Adapter)
    ensures adapter == AnthropicAdapter <==> provider == Some(Anthropic)
    ensures provider == Some(OpenAI) ==> adapter == OpenAIAdapter
    ensures provider.None? ==> adapter == OpenAIAdapter
  {
    match provider
    case Some(OpenAI) => OpenAIAdapter
    case Some(Anthropic) => AnthropicAdapter
    case _ => OpenAIAdapter
  }
}

=== FILE: dataset_rows.dfy ===
/** The dataset-rows store: the SWR cache key of a rows query, and the
    serialisation of server rows into cells laid out in column order. */
module DatasetRows {
  import opened Wrappers
  import opened Json
  import opened Datasets
  import opened VersionedDatasets

  // ---------------------------------------------------------------------
  // buildDatasetRowKey

  /** One element of the array handed to lodash `compact`. `KNaN` is what
      `+page` gives for text that is not a number. */
  datatype KeyPart = KUndefined | KNaN | KStr(s: string) | KNum(n: int)

  /** The values `compact` drops. */
  predicate Falsy(p: KeyPart)
  {
    match p
    case KUndefined => true
    case KNaN => true
    case KStr(s) => |s| == 0
    case KNum(n) => n == 0
  }

  /** lodash `compact`: the truthy elements, in order. */
  function Compact(parts: seq<KeyPart>): (kept: seq<KeyPart>)
    ensures |kept| <= |parts|
    ensures forall i :: 0 <= i < |kept| ==> !Falsy(kept[i])
  {
    if |parts| == 0 then []
    else
      (if Falsy(parts[0]) then [] else [parts[0]]) + Compact(parts[1..])
  }

  /** A single part after `compact`: itself, or nothing when falsy. */
  function Kept(p: KeyPart): seq<KeyPart>
  {
    if Falsy(p) then [] else [p]
  }

  /** An element survives `compact` exactly when it is in the list and
      truthy. */
  lemma {:induction false} CompactKeepsExactlyTruthy(parts: seq<KeyPart>, x: KeyPart)
    ensures x in Compact(parts) <==> x in parts && !Falsy(x)
    decreases |parts|
  {
    if |parts| > 0 {
      CompactKeepsExactlyTruthy(parts[1..], x);
      assert parts == [parts[0]] + parts[1..];
    }
  }

  /** `compact` distributes over concatenation, so it keeps the relative
      order of the truthy elements. */
  lemma {:induction false} CompactAppend(a: seq<KeyPart>, b: seq<KeyPart>)
    ensures Compact(a + b) == Compact(a) + Compact(b)
    decreases |a|
  {
    if |a| == 0 {
      assert a + b == b;
    } else {
      CompactAppend(a[1..], b);
      assert (a + b)[1..] == a[1..] + b;
    }
  }

  lemma CompactOfOne(p: KeyPart)
    ensures Compact([p]) == Kept(p)
  {
    assert [p][1..] == [];
  }

  /** `compact` of the five key components keeps the truthy ones in order. */
  lemma CompactOfFive(a: KeyPart, b: KeyPart, c: KeyPart, d: KeyPart, e: KeyPart)
    ensures Compact([a, b, c, d, e]) == Kept(a) + Kept(b) + Kept(c) + Kept(d) + Kept(e)
  {
    CompactOfOne(a); CompactOfOne(b); CompactOfOne(c); CompactOfOne(d); CompactOfOne(e);
    CompactAppend([a], [b]);
    assert [a, b] == [a] + [b];
    CompactAppend([a, b], [c]);
    assert [a, b, c] == [a, b] + [c];
    CompactAppend([a, b, c], [d]);
    assert [a, b, c, d] == [a, b, c] + [d];
    CompactAppend([a, b, c, d], [e]);
    assert [a, b, c, d, e] == [a, b, c, d] + [e];
  }

  /** `datasetId` as it enters the key. */
  function IdPart(datasetId: Option<int>): KeyPart
  {
    if datasetId.Some? then KNum(datasetId.value) else KUndefined
  }

  /** `page ? +page : undefined`, `+` being the given string-to-number
      conversion (`None` for NaN). */
  function NumericPart(text: Option<string>, toNumber: string -> Option<int>): KeyPart
  {
    if text.None? || text.value == "" then KUndefined
    else
      match toNumber(text.value)
      case Some(n) => KNum(n)
      case None => KNaN
  }

  function CountFlag(withCount: bool): string
  {
    if withCount then "withCount" else "withoutCount"
  }

  /** Only the count flag can be a string in the key. */
  lemma RowKeyFlags(id: KeyPart, withCount: bool, p: KeyPart, s: KeyPart)
    requires !id.KStr? && !p.KStr? && !s.KStr?
    ensures var key := [KStr("datasetRows")] + Kept(id) + [KStr(CountFlag(withCount))] + Kept(p) + Kept(s);
      && 2 <= |key| <= 5
      && key[0] == KStr("datasetRows")
      && (KStr("withCount") in key <==> withCount)
      && (KStr("withoutCount") in key <==> !withCount)
  {
    var key := [KStr("datasetRows")] + Kept(id) + [KStr(CountFlag(withCount))] + Kept(p) + Kept(s);
    var front := [KStr("datasetRows")] + Kept(id);
    assert key == front + [KStr(CountFlag(withCount))] + (Kept(p) + Kept(s));
    assert forall x :: x in front + Kept(p) + Kept(s) && x.KStr? ==> x == KStr("datasetRows");
  }

  /** The cache key: "datasetRows", the dataset id, the count flag, the page
      and the page size, each falsy component dropped. */
  function BuildDatasetRowKey(
    datasetId: Option<int>,
    withCount: bool,
    page: Option<string>,
    pageSize: Option<string>,
    toNumber: string -> Option<int>): (key: seq<KeyPart>)
    ensures key == [KStr("datasetRows")] + Kept(IdPart(datasetId)) + [KStr(CountFlag(withCount))]
                   + Kept(NumericPart(page, toNumber)) + Kept(NumericPart(pageSize, toNumber))
    ensures 2 <= |key| <= 5
    ensures key[0] == KStr("datasetRows")
    ensures KStr("withCount") in key <==> withCount
    ensures KStr("withoutCount") in key <==> !withCount
  {
    var id := IdPart(datasetId);
    var flag := KStr(CountFlag(withCount));
    var p := NumericPart(page, toNumber);
    var s := NumericPart(pageSize, toNumber);
    CompactOfFive(KStr("datasetRows"), id, flag, p, s);
    RowKeyFlags(id, withCount, p, s);
    Compact([KStr("datasetRows"), id, flag, p, s])
  }

  /** With a dataset, a page and a page size all present and non-zero, the
      key determines the whole query. */
  lemma {:induction false} RowKeyDeterminesQuery(
    id1: int, withCount1: bool, page1: string, pageSize1: string,
    id2: int, withCount2: bool, page2: string, pageSize2: string,
    toNumber: string -> Option<int>)
    requires id1 != 0 && id2 != 0
    requires NumericPart(Some(page1), toNumber).KNum? && NumericPart(Some(page1), toNumber).n != 0
    requires NumericPart(Some(pageSize1), toNumber).KNum? && NumericPart(Some(pageSize1), toNumber).n != 0
    requires NumericPart(Some(page2), toNumber).KNum? && NumericPart(Some(page2), toNumber).n != 0
    requires NumericPart(Some(pageSize2), toNumber).KNum? && NumericPart(Some(pageSize2), toNumber).n != 0
    requires BuildDatasetRowKey(Some(id1), withCount1, Some(page1), Some(pageSize1), toNumber)
          == BuildDatasetRowKey(Some(id2), withCount2, Some(page2), Some(pageSize2), toNumber)
    ensures id1 == id2 && withCount1 == withCount2
    ensures toNumber(page1) == toNumber(page2) && toNumber(pageSize1) == toNumber(pageSize2)
  {
    var k1 := BuildDatasetRowKey(Some(id1), withCount1, Some(page1), Some(pageSize1), toNumber);
    var k2 := BuildDatasetRowKey(Some(id2), withCount2, Some(page2), Some(pageSize2), toNumber);
    assert k1[1] == KNum(id1) && k2[1] == KNum(id2);
    assert k1[2] == KStr(CountFlag(withCount1)) && k2[2] == KStr(CountFlag(withCount2));
    assert k1[3] == NumericPart(Some(page1), toNumber) && k2[3] == NumericPart(Some(page2), toNumber);
    assert k1[4] == NumericPart(Some(pageSize1), toNumber) && k2[4] == NumericPart(Some(pageSize2), toNumber);
  }

  /** The key does not say which of page and page size it carries: a query
      with only a page and one with only an equal page size share a key. */
  lemma PageAndPageSizeShareKeys(
    datasetId: Option<int>, withCount: bool, text: string, toNumber: string -> Option<int>)
    ensures BuildDatasetRowKey(datasetId, withCount, Some(text), None, toNumber)
         == BuildDatasetRowKey(datasetId, withCount, None, Some(text), toNumber)
  {
  }

  // ---------------------------------------------------------------------
  // serializeRows

  /** A dataset row as the server sends it; the dates arrive as text. */
  datatype ServerRow = ServerRow(
    id: int,
    workspaceId: int,
    datasetId: int,
    rowData: map<string, Json>,
    createdAt: string,
    updatedAt: string)

  datatype ServerData = ServerData(rows: seq<ServerRow>, count: int)

  /** A row on the client: the row without `rowData`, plus its cells;
      dates are milliseconds since the epoch. */
  datatype ClientRow = ClientRow(
    id: int,
    workspaceId: int,
    datasetId: int,
    cells: seq<Json>,
    createdAt: int,
    updatedAt: int)

  datatype ClientData = ClientData(rows: seq<ClientRow>, rowCount: int)

  /** One cell per column, in column order: the row's value under the
      column's identifier, or null when the row has none. */
  function Cells(columns: seq<Column>, rowData: map<string, Json>): (cells: seq<Json>)
    ensures |cells| == |columns|
    ensures forall j :: 0 <= j < |columns| ==>
      cells[j] == Coalesce(Get(rowData, columns[j].identifier), Null)
  {
    if |columns| == 0 then []
    else [Coalesce(Get(rowData, columns[0].identifier), Null)] + Cells(columns[1..], rowData)
  }

  function SerializeRow(columns: seq<Column>, row: ServerRow, toDate: string -> int): ClientRow
  {
    ClientRow(row.id, row.workspaceId, row.datasetId, Cells(columns, row.rowData),
              toDate(row.createdAt), toDate(row.updatedAt))
  }

  function SerializeRows(columns: seq<Column>, data: ServerData, toDate: string -> int): (client: ClientData)
    ensures |client.rows| == |data.rows|
    ensures client.rowCount == data.count
    ensures forall i :: 0 <= i < |data.rows| ==>
      && client.rows[i].id == data.rows[i].id
      && client.rows[i].workspaceId == data.rows[i].workspaceId
      && client.rows[i].datasetId == data.rows[i].datasetId
      && client.rows[i].createdAt == toDate(data.rows[i].createdAt)
      && client.rows[i].updatedAt == toDate(data.rows[i].updatedAt)
      && |client.rows[i].cells| == |columns|
    ensures forall i, j :: 0 <= i < |data.rows| && 0 <= j < |columns| ==>
      client.rows[i].cells[j] == Coalesce(Get(data.rows[i].rowData, columns[j].identifier), Null)
  {
    ClientData(seq(|data.rows|, i requires 0 <= i < |data.rows| => SerializeRow(columns, data.rows[i], toDate)),
               data.count)
  }

  /** For a V2 dataset, the position the header list gives a column name is
      the position of that column's cell in every serialised row: the cell
      read under a header is the value of the first column bearing that name. */
  lemma {:induction false} CellUnderHeader(
    d: Dataset, header: string, data: ServerData, toDate: string -> int, i: nat)
    requires d.fileMetadata.None? && d.columns.Some?
    requires i < |data.rows|
    requires GetColumnIndex(BuildColumnList(Some(d)), header).Some?
    ensures var j := GetColumnIndex(BuildColumnList(Some(d)), header).value;
      && j < |d.columns.value|
      && d.columns.value[j].name == header
      && (forall j' :: 0 <= j' < j ==> d.columns.value[j'].name != header)
      && SerializeRows(d.columns.value, data, toDate).rows[i].cells[j]
         == Coalesce(Get(data.rows[i].rowData, d.columns.value[j].identifier), Null)
  {
    var names := BuildColumnList(Some(d));
    var j := GetColumnIndex(names, header).value;
    assert names[j] == d.columns.value[j].name;
    forall j' | 0 <= j' < j
      ensures d.columns.value[j'].name != header
    {
      assert names[j'] == d.columns.value[j'].name;
    }
  }
}

=== FILE: datasets.dfy ===
/** The shared domain records the playground hook, the dataset store and the
    linked-dataset service exchange: playground inputs, the per-dataset
    "linked data" a document remembers, document versions and datasets in
    their two versions. */
module Datasets {
  import opened Wrappers

  /** Metadata of one playground input. */
  datatype InputMetadata = InputMetadata(
    includeInPrompt: bool,
    paramType: Option<string>,
    filename: Option<string>)

  /** One playground input. Its value is declared a string, but a value built
      from `JSON.stringify(undefined)` is `undefined` at run time, hence the
      `Option`. */
  datatype PlaygroundInput = PlaygroundInput(value: Option<string>, metadata: InputMetadata)

  /** Parameter name to input. */
  type Inputs = map<string, PlaygroundInput>

  /** Parameter name to dataset column index. */
  type MappedInputs = map<string, int>

  datatype DatasetVersion = V1 | V2

  /** One entry of a document's linked-dataset columns. A V1 entry
      (`LinkedDataset`) carries `inputs`, `mappedInputs` and `rowIndex`; a V2
      entry (`LinkedDatasetRow`) carries `mappedInputs` and `datasetRowId`.
      A field that is absent, or present but `undefined`, is `None`. */
  datatype LinkedData = LinkedData(
    inputs: Option<Inputs>,
    mappedInputs: MappedInputs,
    rowIndex: Option<int>,
    datasetRowId: Option<int>)

  /** `EMPTY_LINKED_DATASET`: row 0, no inputs, no mapping. */
  const EmptyLinkedDataset: LinkedData := LinkedData(Some(map[]), map[], Some(0), None)

  /** `EMPTY_LINKED_DATASET_ROW`: row id 0, no mapping. */
  const EmptyLinkedDatasetRow: LinkedData := LinkedData(None, map[], None, Some(0))

  /** The empty record of a dataset version. */
  function EmptyLinked(version: DatasetVersion): LinkedData
  {
    if version == V1 then EmptyLinkedDataset else EmptyLinkedDatasetRow
  }

  /** Dataset id to linked data, as stored in a JSON column. */
  type LinkedColumn = map<int, LinkedData>

  /** The document-version columns this model reads and writes: a document
      is assigned a V1 dataset through `datasetId` and a V2 dataset through
      `datasetV2Id`; `linkedDataset` is the V1 column, `linkedDatasetAndRow`
      the V2 one. */
  datatype DocumentVersion = DocumentVersion(
    id: int,
    documentUuid: string,
    datasetId: Option<int>,
    datasetV2Id: Option<int>,
    linkedDataset: Option<LinkedColumn>,
    linkedDatasetAndRow: Option<LinkedColumn>)

  /** `!!datasetId`: `undefined`, `null` and `0` are all falsy. */
  predicate HasDataset(datasetId: Option<int>)
  {
    datasetId.Some? && datasetId.value != 0
  }

  datatype FileMetadata = FileMetadata(headers: seq<string>, rowCount: int)

  datatype Column = Column(identifier: string, name: string)

  /** `Dataset | DatasetV2`. A V1 dataset has `fileMetadata`, a V2 dataset
      has `columns`; the source tells them apart with `'key' in dataset`. */
  datatype Dataset = Dataset(
    id: int,
    name: string,
    fileMetadata: Option<FileMetadata>,
    columns: Option<seq<Column>>)
}

=== FILE: document_parameters.dfy ===
/** The pure logic of the playground-parameters hook: the per-document input
    state kept in local storage, the updaters that rewrite one slot of it,
    the conversion of inputs to prompt parameters, the mapping of a log's
    parameters onto history inputs, and the choice of a document's linked
    dataset record. */
module DocumentParameters {
  import opened Wrappers
  import opened Json
  import opened Datasets

  datatype InputSource = ManualSource | DatasetSource | HistorySource

  datatype ManualSlot = ManualSlot(inputs: Inputs)

  datatype DatasetSlot = DatasetSlot(
    datasetId: Option<int>,
    inputs: Inputs,
    mappedInputs: MappedInputs,
    rowIndex: int,
    datasetRowId: int)

  datatype HistorySlot = HistorySlot(logUuid: Option<string>, inputs: Inputs)

  /** `PlaygroundInputs`: the selected source and one slot per source. */
  datatype DocInputs = DocInputs(
    source: InputSource,
    manual: ManualSlot,
    dataset: DatasetSlot,
    history: HistorySlot)

  /** Local-storage state: `${commitUuid}:${documentUuid}` to inputs. */
  type InputsByDocument = map<string, DocInputs>

  /** `EMPTY_INPUTS`: manual source, every slot empty. */
  const EmptyInputs: DocInputs := DocInputs(
    ManualSource,
    ManualSlot(map[]),
    DatasetSlot(None, map[], map[], 0, 0),
    HistorySlot(None, map[]))

  /** The `inputs` field of one source's slot. */
  function SlotInputs(doc: DocInputs, source: InputSource): Inputs
  {
    match source
    case ManualSource => doc.manual.inputs
    case DatasetSource => doc.dataset.inputs
    case HistorySource => doc.history.inputs
  }

  // ---------------------------------------------------------------------
  // convertToParams

  /** One input as a prompt parameter: its value parsed as JSON, or the raw
      string when parsing throws; an `undefined` value makes `JSON.parse`
      throw and `value?.toString?.()` yield `undefined`. */
  function ParamOf(input: PlaygroundInput, parse: string -> Option<Json>): Json
  {
    match input.value
    case None => Undefined
    case Some(s) =>
      match parse(s)
      case Some(v) => v
      case None => Str(s)
  }

  function ConvertToParams(inputs: Inputs, parse: string -> Option<Json>): (params: map<string, Json>)
    ensures params.Keys == inputs.Keys
    ensures forall k :: k in inputs && inputs[k].value.None? ==> params[k] == Undefined
    ensures forall k :: k in inputs && inputs[k].value.Some? && parse(inputs[k].value.value).Some? ==>
      params[k] == parse(inputs[k].value.value).value
    ensures forall k :: k in inputs && inputs[k].value.Some? && parse(inputs[k].value.value).None? ==>
      params[k] == Str(inputs[k].value.value)
  {
    map k | k in inputs :: ParamOf(inputs[k], parse)
  }

  // ---------------------------------------------------------------------
  // getDocState

  datatype DocState = DocState(state: InputsByDocument, doc: DocInputs)

  function GetDocState(oldState: Option<InputsByDocument>, key: string): (r: DocState)
    ensures oldState.None? ==> r.state == map[] && r.doc == EmptyInputs
    ensures oldState.Some? ==> r.state == oldState.value
    ensures key in r.state ==> r.doc == r.state[key]
    ensures key !in r.state ==> r.doc == EmptyInputs
  {
    var state := oldState.GetOr(map[]);
    DocState(state, if key in state then state[key] else EmptyInputs)
  }

  // ---------------------------------------------------------------------
  // getValue and mapLogParametersToInputs

  /** The history input built from one logged parameter value. */
  function GetValue(paramValue: Json, stringify: Json -> Stringified): (input: PlaygroundInput)
    ensures paramValue.Str? ==> input.value == Some(paramValue.s) && input.metadata.includeInPrompt
    ensures paramValue.Str? || !stringify(paramValue).Threw? ==>
      (input.metadata.includeInPrompt <==> paramValue != Undefined)
    ensures !paramValue.Str? && stringify(paramValue).Serialized? ==> input.value == Some(stringify(paramValue).text)
    ensures !paramValue.Str? && stringify(paramValue).NotSerialized? ==> input.value.None?
    ensures !paramValue.Str? && stringify(paramValue).Threw? ==>
      input.value == Some("") && !input.metadata.includeInPrompt
    ensures input.metadata.paramType.None? && input.metadata.filename.None?
  {
    if paramValue.Str? then
      PlaygroundInput(Some(paramValue.s), InputMetadata(true, None, None))
    else
      match stringify(paramValue)
      case Threw => PlaygroundInput(Some(""), InputMetadata(false, None, None))
      case NotSerialized => PlaygroundInput(None, InputMetadata(paramValue != Undefined, None, None))
      case Serialized(t) => PlaygroundInput(Some(t), InputMetadata(paramValue != Undefined, None, None))
  }

  lemma UndefinedParameterIsExcluded(stringify: Json -> Stringified)
    requires StringifiesUndefinedToUndefined(stringify)
    ensures GetValue(Undefined, stringify) == PlaygroundInput(None, InputMetadata(false, None, None))
  {
  }

  /** The history inputs a log's parameters produce: `None` when the log has
      no parameters; otherwise one input per key of the CURRENT inputs (not of
      the parameters), a key the log lacks reading as `undefined`. */
  function LogParametersToInputs(
    inputs: Inputs,
    parameters: Option<map<string, Json>>,
    stringify: Json -> Stringified): (r: Option<Inputs>)
    ensures r.None? <==> parameters.None? || |parameters.value| == 0
    ensures r.Some? ==> r.value.Keys == inputs.Keys
    ensures r.Some? ==> forall k :: k in inputs ==>
      r.value[k] == GetValue(Get(parameters.value, k), stringify)
  {
    var params := parameters.GetOr(map[]);
    if |params| == 0 then None
    else Some(map k | k in inputs :: GetValue(Get(params, k), stringify))
  }

  /** The `Object.entries(inputs).reduce` of `mapLogParametersToInputs`, as a
      loop over the keys in any order. */
  method MapLogParametersToInputs(
    inputs: Inputs,
    parameters: Option<map<string, Json>>,
    stringify: Json -> Stringified) returns (r: Option<Inputs>)
    ensures r.None? <==> parameters.None? || |parameters.value| == 0
    ensures r.Some? ==> r.value.Keys == inputs.Keys
    ensures r.Some? ==> forall k :: k in inputs ==>
      r.value[k] == GetValue(Get(parameters.value, k), stringify)
  {
    var params := parameters.GetOr(map[]);
    if |params| == 0 {
      return None;
    }
    var acc: Inputs := map[];
    var pending := inputs.Keys;
    while pending != {}
      invariant pending <= inputs.Keys
      invariant acc.Keys == inputs.Keys - pending
      invariant forall k :: k in acc ==> acc[k] == GetValue(Get(params, k), stringify)
      decreases pending
    {
      var k :| k in pending;
      acc := acc[k := GetValue(Get(params, k), stringify)];
      pending := pending - {k};
    }
    return Some(acc);
  }

  /** A logged value survives "log parameters to history inputs, then inputs
      to prompt parameters" when: a string does not itself parse as JSON,
      `undefined` stringifies to `undefined`, and any other value parses back
      from its JSON text. */
  ghost predicate Restorable(v: Json, parse: string -> Option<Json>, stringify: Json -> Stringified)
  {
    match v
    case Str(s) => parse(s).None?
    case Undefined => stringify(v).NotSerialized?
    case _ => stringify(v).Serialized? && parse(stringify(v).text) == Some(v)
  }

  lemma RestorableValueRoundTrips(v: Json, parse: string -> Option<Json>, stringify: Json -> Stringified)
    requires Restorable(v, parse, stringify)
    ensures ParamOf(GetValue(v, stringify), parse) == v
  {
  }

  lemma {:induction false} HistoryParametersRoundTrip(
    inputs: Inputs,
    parameters: map<string, Json>,
    parse: string -> Option<Json>,
    stringify: Json -> Stringified)
    requires |parameters| > 0
    requires forall k :: k in inputs ==> Restorable(Get(parameters, k), parse, stringify)
    ensures LogParametersToInputs(inputs, Some(parameters), stringify).Some?
    ensures ConvertToParams(LogParametersToInputs(inputs, Some(parameters), stringify).value, parse)
      == map k | k in inputs :: Get(parameters, k)
  {
    var mapped := LogParametersToInputs(inputs, Some(parameters), stringify).value;
    var params := ConvertToParams(mapped, parse);
    forall k | k in inputs
      ensures params[k] == Get(parameters, k)
    {
      RestorableValueRoundTrips(Get(parameters, k), parse, stringify);
    }
  }

  /** A logged string that happens to be JSON text comes back as the parsed
      value, not as the string: the round trip is lossy for such strings. */
  lemma JsonLookingStringChangesType(
    inputs: Inputs,
    parameters: map<string, Json>,
    parse: string -> Option<Json>,
    stringify: Json -> Stringified,
    k: string)
    requires k in inputs && k in parameters && parameters[k].Str?
    requires parse(parameters[k].s).Some?
    ensures LogParametersToInputs(inputs, Some(parameters), stringify).Some?
    ensures ConvertToParams(LogParametersToInputs(inputs, Some(parameters), stringify).value, parse)[k]
      == parse(parameters[k].s).value
  {
  }

  // ---------------------------------------------------------------------
  // The updaters handed to `setValue`

  /** The `setInputs` updater: replaces the inputs of one source's slot of
      one document. */
  function SetInputs(
    oldState: Option<InputsByDocument>,
    key: string,
    source: InputSource,
    newInputs: Inputs): (r: InputsByDocument)
    ensures r.Keys == GetDocState(oldState, key).state.Keys + {key}
    ensures forall k :: k in r && k != key ==> r[k] == GetDocState(oldState, key).state[k]
    ensures forall s: InputSource :: SlotInputs(r[key], s) ==
                                     (if s == source then newInputs else SlotInputs(GetDocState(oldState, key).doc, s))
    ensures r[key].source == GetDocState(oldState, key).doc.source
    ensures r[key].history.logUuid == GetDocState(oldState, key).doc.history.logUuid
    ensures r[key].dataset == GetDocState(oldState, key).doc.dataset.(inputs := r[key].dataset.inputs)
  {
    var ds := GetDocState(oldState, key);
    var doc := ds.doc;
    var updated :=
      match source
      case ManualSource => doc.(manual := doc.manual.(inputs := newInputs))
      case DatasetSource => doc.(dataset := doc.dataset.(inputs := newInputs))
      case HistorySource => doc.(history := doc.history.(inputs := newInputs));
    ds.state[key := updated]
  }

  /** The `setSource` updater: selects the source of one document. */
  function SetSource(oldState: Option<InputsByDocument>, key: string, source: InputSource): (r: InputsByDocument)
    ensures r.Keys == GetDocState(oldState, key).state.Keys + {key}
    ensures forall k :: k in r && k != key ==> r[k] == GetDocState(oldState, key).state[k]
    ensures r[key].source == source
    ensures r[key].manual == GetDocState(oldState, key).doc.manual
    ensures r[key].dataset == GetDocState(oldState, key).doc.dataset
    ensures r[key].history == GetDocState(oldState, key).doc.history
  {
    var ds := GetDocState(oldState, key);
    ds.state[key := ds.doc.(source := source)]
  }

  /** The `setHistoryLog` updater: records the selected log, keeping the
      history inputs. */
  function SetHistoryLog(oldState: Option<InputsByDocument>, key: string, logUuid: string): (r: InputsByDocument)
    ensures r.Keys == GetDocState(oldState, key).state.Keys + {key}
    ensures forall k :: k in r && k != key ==> r[k] == GetDocState(oldState, key).state[k]
    ensures r[key].history.logUuid == Some(logUuid)
    ensures r[key].history.inputs == GetDocState(oldState, key).doc.history.inputs
    ensures r[key].source == GetDocState(oldState, key).doc.source
    ensures r[key].manual == GetDocState(oldState, key).doc.manual
    ensures r[key].dataset == GetDocState(oldState, key).doc.dataset
  {
    var ds := GetDocState(oldState, key);
    ds.state[key := ds.doc.(history := ds.doc.history.(logUuid := Some(logUuid)))]
  }

  /** Reading a document back after `setInputs` sees the new inputs. */
  lemma SetInputsThenRead(oldState: Option<InputsByDocument>, key: string, source: InputSource, newInputs: Inputs)
    ensures SlotInputs(GetDocState(Some(SetInputs(oldState, key, source, newInputs)), key).doc, source) == newInputs
  {
  }

  /** The last `setSource` wins. */
  lemma SetSourceLastWins(oldState: Option<InputsByDocument>, key: string, a: InputSource, b: InputSource)
    ensures SetSource(Some(SetSource(oldState, key, a)), key, b) == SetSource(oldState, key, b)
  {
  }

  /** Selecting a source and replacing a slot's inputs commute. */
  lemma SetSourceCommutesWithSetInputs(
    oldState: Option<InputsByDocument>,
    key: string,
    source: InputSource,
    slot: InputSource,
    newInputs: Inputs)
    ensures SetSource(Some(SetInputs(oldState, key, slot, newInputs)), key, source)
         == SetInputs(Some(SetSource(oldState, key, source)), key, slot, newInputs)
  {
  }

  /** One of the three state updaters, with its arguments. */
  datatype Update =
    | InputsUpdate(source: InputSource, newInputs: Inputs)
    | SourceUpdate(newSource: InputSource)
    | LogUpdate(logUuid: string)

  /** Runs an updater on the document at `key`. */
  function Apply(state: Option<InputsByDocument>, key: string, u: Update): InputsByDocument
  {
    match u
    case InputsUpdate(source, newInputs) => SetInputs(state, key, source, newInputs)
    case SourceUpdate(newSource) => SetSource(state, key, newSource)
    case LogUpdate(logUuid) => SetHistoryLog(state, key, logUuid)
  }

  /** What an update does to the one document it touches. */
  function Step(doc: DocInputs, u: Update): DocInputs
  {
    match u
    case InputsUpdate(ManualSource, newInputs) => doc.(manual := doc.manual.(inputs := newInputs))
    case InputsUpdate(DatasetSource, newInputs) => doc.(dataset := doc.dataset.(inputs := newInputs))
    case InputsUpdate(HistorySource, newInputs) => doc.(history := doc.history.(inputs := newInputs))
    case SourceUpdate(newSource) => doc.(source := newSource)
    case LogUpdate(logUuid) => doc.(history := doc.history.(logUuid := Some(logUuid)))
  }

  /** Every updater rewrites the document at its key and nothing else. */
  lemma ApplyIsStep(state: Option<InputsByDocument>, key: string, u: Update)
    ensures Apply(state, key, u) == GetDocState(state, key).state[key := Step(GetDocState(state, key).doc, u)]
  {
  }

  /** Two updates at different keys each rewrite their own document as it
      was in the original state. */
  lemma {:induction false} ApplyTwice(
    state: Option<InputsByDocument>,
    key1: string,
    u1: Update,
    key2: string,
    u2: Update)
    requires key1 != key2
    ensures Apply(Some(Apply(state, key1, u1)), key2, u2)
         == state.GetOr(map[])[key1 := Step(GetDocState(state, key1).doc, u1)]
                              [key2 := Step(GetDocState(state, key2).doc, u2)]
  {
    var after1 := state.GetOr(map[])[key1 := Step(GetDocState(state, key1).doc, u1)];
    ApplyIsStep(state, key1, u1);
    ApplyIsStep(Some(after1), key2, u2);
  }

  /** Any two updates to different documents commute. */
  lemma {:induction false} UpdatesOfDifferentDocumentsCommute(
    state: Option<InputsByDocument>,
    key1: string,
    u1: Update,
    key2: string,
    u2: Update)
    requires key1 != key2
    ensures Apply(Some(Apply(state, key1, u1)), key2, u2) == Apply(Some(Apply(state, key2, u2)), key1, u1)
  {
    ApplyTwice(state, key1, u1, key2, u2);
    ApplyTwice(state, key2, u2, key1, u1);
    UpdatesAtDifferentKeysCommute(state.GetOr(map[]),
      key1, Step(GetDocState(state, key1).doc, u1),
      key2, Step(GetDocState(state, key2).doc, u2));
  }

  lemma UpdatesAtDifferentKeysCommute<K, V>(m: map<K, V>, k1: K, v1: V, k2: K, v2: V)
    requires k1 != k2
    ensures m[k1 := v1][k2 := v2] == m[k2 := v2][k1 := v1]
  {
  }

  // ---------------------------------------------------------------------
  // getLinkedDataset

  /** The linked data the playground shows for a document: the version's
      empty record when the document has no dataset; the local slot's inputs
      and mapping at index 0 when the version's column is empty; otherwise
      the stored entry for the document's dataset, or the empty record. */
  function GetLinkedDataset(document: DocumentVersion, localInputs: DatasetSlot, version: DatasetVersion): (r: LinkedData)
    ensures !HasDataset(document.datasetId) ==> r == EmptyLinked(version)
    ensures HasDataset(document.datasetId) && |StoredColumn(document, version)| == 0 ==>
      && r.inputs == Some(localInputs.inputs)
      && r.mappedInputs == localInputs.mappedInputs
      && (version == V1 ==> r.rowIndex == Some(0) && r.datasetRowId.None?)
      && (version == V2 ==> r.rowIndex.None? && r.datasetRowId == Some(0))
    ensures HasDataset(document.datasetId) && |StoredColumn(document, version)| > 0 ==>
      r == if document.datasetId.value in StoredColumn(document, version)
           then StoredColumn(document, version)[document.datasetId.value]
           else EmptyLinked(version)
  {
    if !HasDataset(document.datasetId) then EmptyLinked(version)
    else
      var datasetId := document.datasetId.value;
      var all := StoredColumn(document, version);
      if |all| == 0 then
        if version == V1 then LinkedData(Some(localInputs.inputs), localInputs.mappedInputs, Some(0), None)
        else LinkedData(Some(localInputs.inputs), localInputs.mappedInputs, None, Some(0))
      else if datasetId in all then all[datasetId]
      else EmptyLinked(version)
  }

  /** The dataset a document is assigned for a version: `datasetId` for V1,
      `datasetV2Id` for V2. */
  function AssignedDatasetId(document: DocumentVersion, version: DatasetVersion): Option<int>
  {
    if version == V1 then document.datasetId else document.datasetV2Id
  }

  /** The lookup keyed on the dataset the document is assigned for the
      version, where the lookup above keys both versions on `datasetId`. */
  function GetLinkedDatasetForVersion(document: DocumentVersion, localInputs: DatasetSlot, version: DatasetVersion): (r: LinkedData)
    ensures !HasDataset(AssignedDatasetId(document, version)) ==> r == EmptyLinked(version)
    ensures HasDataset(AssignedDatasetId(document, version)) && |StoredColumn(document, version)| == 0 ==>
      && r.inputs == Some(localInputs.inputs)
      && r.mappedInputs == localInputs.mappedInputs
      && (version == V1 ==> r.rowIndex == Some(0) && r.datasetRowId.None?)
      && (version == V2 ==> r.rowIndex.None? && r.datasetRowId == Some(0))
    ensures HasDataset(AssignedDatasetId(document, version)) && |StoredColumn(document, version)| > 0 ==>
      r == if AssignedDatasetId(document, version).value in StoredColumn(document, version)
           then StoredColumn(document, version)[AssignedDatasetId(document, version).value]
           else EmptyLinked(version)
    ensures version == V1 ==> r == GetLinkedDataset(document, localInputs, V1)
  {
    GetLinkedDataset(document.(datasetId := AssignedDatasetId(document, version)), localInputs, version)
  }

  /** The column a dataset version reads: `linkedDataset` for V1,
      `linkedDatasetAndRow` for V2, each defaulting to `{}`. */
  function StoredColumn(document: DocumentVersion, version: DatasetVersion): LinkedColumn
  {
    if version == V1 then document.linkedDataset.GetOr(map[])
    else document.linkedDatasetAndRow.GetOr(map[])
  }
}

=== FILE: json.dfy ===
/** The JavaScript values that travel through local storage, JSON columns and
    the AI SDK, with the truthiness rules the source's `||`, `?:` and lodash
    `compact` rely on. */
module Json {

  datatype Json =
    | Undefined
    | Null
    | Bool(b: bool)
    | Num(n: int)
    | Str(s: string)
    | Arr(items: seq<Json>)
    | Obj(fields: map<string, Json>)

  /** JavaScript truthiness; every array and every object is truthy, even an
      empty one. */
  predicate Truthy(v: Json)
  {
    match v
    case Undefined => false
    case Null => false
    case Bool(b) => b
    case Num(n) => n != 0
    case Str(s) => |s| > 0
    case Arr(_) => true
    case Obj(_) => true
  }

  /** `obj[key]`: an absent key reads as `undefined`. */
  function Get(fields: map<string, Json>, key: string): Json
  {
    if key in fields then fields[key] else Undefined
  }

  /** `a ?? b` */
  function Coalesce(a: Json, b: Json): Json
  {
    if a == Undefined || a == Null then b else a
  }

  /** What `JSON.stringify` can do with a value: throw (a `BigInt`, a
      cycle), return `undefined` (for `undefined` itself), or produce text. */
  datatype Stringified = Threw | NotSerialized | Serialized(text: string)

  /** The documented behaviour of `JSON.stringify` on `undefined`. */
  ghost predicate StringifiesUndefinedToUndefined(stringify: Json -> Stringified)
  {
    stringify(Undefined) == NotSerialized
  }
}

=== FILE: linked_datasets.dfy ===
/** The pure part of the linked-dataset service: the version-specific record
    saved for a dataset, the validation of a V2 row id, and the one-key update
    of the document's linked-dataset column. The database update itself is
    abstracted as `ApplyUpdate`, the row it returns. */
module LinkedDatasets {
  import opened Wrappers
  import opened Datasets
  import DocumentParameters

  /** The `data` argument of the service. */
  datatype SaveData = SaveData(
    rowIndex: Option<int>,
    datasetRowId: Option<int>,
    mappedInputs: MappedInputs,
    inputs: Option<Inputs>)

  /** The column write a save performs. */
  datatype ColumnUpdate =
    | SetLinkedDataset(column: LinkedColumn)
    | SetLinkedDatasetAndRow(column: LinkedColumn)

  datatype SaveOutcome = Saved(update: ColumnUpdate) | Failed(message: string)

  const InvalidDatasetRowId := "Invalid dataset row id"

  /** The record saved for a dataset: V1 keeps inputs, mapping and row
      index; V2 keeps the mapping and the row id only. */
  function GetLinkedData(version: DatasetVersion, data: SaveData): (entry: LinkedData)
    ensures entry.mappedInputs == data.mappedInputs
    ensures version == V1 ==>
      entry.inputs == data.inputs && entry.rowIndex == data.rowIndex && entry.datasetRowId.None?
    ensures version == V2 ==>
      entry.inputs.None? && entry.rowIndex.None? && entry.datasetRowId == data.datasetRowId
  {
    match version
    case V1 => LinkedData(data.inputs, data.mappedInputs, data.rowIndex, None)
    case V2 => LinkedData(None, data.mappedInputs, None, data.datasetRowId)
  }

  /** The service as written: the previous map is `document.linkedDataset ??
      {}` whatever the version, since the version-selecting conditional is a
      discarded expression statement. */
  function SaveLinkedDatasetAsWritten(
    document: DocumentVersion,
    dataset: Dataset,
    version: DatasetVersion,
    data: SaveData): (r: SaveOutcome)
    ensures r.Failed? <==> version == V2 && data.datasetRowId.None?
    ensures r.Failed? ==> r.message == InvalidDatasetRowId
    ensures r.Saved? ==> (r.update.SetLinkedDataset? <==> version == V1)
    ensures r.Saved? ==>
      r.update.column == document.linkedDataset.GetOr(map[])[dataset.id := GetLinkedData(version, data)]
  {
    var prev := document.linkedDataset.GetOr(map[]);
    if version == V2 && data.datasetRowId.None? then Failed(InvalidDatasetRowId)
    else
      var column := prev[dataset.id := GetLinkedData(version, data)];
      if version == V1 then Saved(SetLinkedDataset(column)) else Saved(SetLinkedDatasetAndRow(column))
  }

  /** The service with the previous map taken from the version's own column. */
  function SaveLinkedDataset(
    document: DocumentVersion,
    dataset: Dataset,
    version: DatasetVersion,
    data: SaveData): (r: SaveOutcome)
    ensures r.Failed? <==> version == V2 && data.datasetRowId.None?
    ensures r.Failed? ==> r.message == InvalidDatasetRowId
    ensures r.Saved? ==> (r.update.SetLinkedDataset? <==> version == V1)
    ensures r.Saved? ==> r.update.column.Keys == DocumentParameters.StoredColumn(document, version).Keys + {dataset.id}
    ensures r.Saved? ==> r.update.column[dataset.id] == GetLinkedData(version, data)
    ensures r.Saved? ==> forall k :: k in DocumentParameters.StoredColumn(document, version) && k != dataset.id ==>
      r.update.column[k] == DocumentParameters.StoredColumn(document, version)[k]
  {
    var prev := DocumentParameters.StoredColumn(document, version);
    if version == V2 && data.datasetRowId.None? then Failed(InvalidDatasetRowId)
    else
      var column := prev[dataset.id := GetLinkedData(version, data)];
      if version == V1 then Saved(SetLinkedDataset(column)) else Saved(SetLinkedDatasetAndRow(column))
  }

  /** The document row the abstracted database update returns. */
  function ApplyUpdate(document: DocumentVersion, update: ColumnUpdate): (updated: DocumentVersion)
    ensures update.SetLinkedDataset? ==>
      updated.linkedDataset == Some(update.column) && updated.linkedDatasetAndRow == document.linkedDatasetAndRow
    ensures update.SetLinkedDatasetAndRow? ==>
      updated.linkedDatasetAndRow == Some(update.column) && updated.linkedDataset == document.linkedDataset
    ensures updated.id == document.id && updated.datasetId == document.datasetId
    ensures updated.datasetV2Id == document.datasetV2Id
    ensures updated.documentUuid == document.documentUuid
  {
    match update
    case SetLinkedDataset(c) => document.(linkedDataset := Some(c))
    case SetLinkedDatasetAndRow(c) => document.(linkedDatasetAndRow := Some(c))
  }

  /** Saving never touches the other version's column. */
  lemma SaveKeepsOtherColumn(document: DocumentVersion, dataset: Dataset, version: DatasetVersion, data: SaveData)
    requires SaveLinkedDataset(document, dataset, version, data).Saved?
    ensures var updated := ApplyUpdate(document, SaveLinkedDataset(document, dataset, version, data).update);
      DocumentParameters.StoredColumn(updated, if version == V1 then V2 else V1)
      == DocumentParameters.StoredColumn(document, if version == V1 then V2 else V1)
  {
  }

  /** Round trip with the playground: after saving for the dataset the
      document is assigned for the version, the version-keyed lookup shows
      exactly the saved record. */
  lemma SaveThenGetLinkedDataset(
    document: DocumentVersion,
    dataset: Dataset,
    version: DatasetVersion,
    data: SaveData,
    localInputs: DocumentParameters.DatasetSlot)
    requires HasDataset(DocumentParameters.AssignedDatasetId(document, version))
    requires dataset.id == DocumentParameters.AssignedDatasetId(document, version).value
    requires version == V2 ==> data.datasetRowId.Some?
    ensures SaveLinkedDataset(document, dataset, version, data).Saved?
    ensures var updated := ApplyUpdate(document, SaveLinkedDataset(document, dataset, version, data).update);
      DocumentParameters.GetLinkedDatasetForVersion(updated, localInputs, version) == GetLinkedData(version, data)
  {
    var update := SaveLinkedDataset(document, dataset, version, data).update;
    var updated := ApplyUpdate(document, update);
    assert DocumentParameters.StoredColumn(updated, version) == update.column;
    assert dataset.id in update.column;
    assert DocumentParameters.AssignedDatasetId(updated, version) == DocumentParameters.AssignedDatasetId(document, version);
  }

  /** For V1 the lookup as written already shows the saved record. */
  lemma SaveThenGetLinkedDatasetV1(
    document: DocumentVersion,
    dataset: Dataset,
    data: SaveData,
    localInputs: DocumentParameters.DatasetSlot)
    requires HasDataset(document.datasetId) && dataset.id == document.datasetId.value
    ensures SaveLinkedDataset(document, dataset, V1, data).Saved?
    ensures var updated := ApplyUpdate(document, SaveLinkedDataset(document, dataset, V1, data).update);
      DocumentParameters.GetLinkedDataset(updated, localInputs, V1) == GetLinkedData(V1, data)
  {
    SaveThenGetLinkedDataset(document, dataset, V1, data, localInputs);
  }

  /** A document assigned V2 dataset 3 and no V1 dataset: after a V2 save of
      row 7 for dataset 3, the lookup as written, which keys V2 on
      `datasetId`, shows the empty V2 record, while the version-keyed lookup
      shows the saved row. */
  lemma V2LinkIgnoredByLookup(localInputs: DocumentParameters.DatasetSlot)
    ensures var document := DocumentVersion(1, "doc", None, Some(3), None, None);
      var dataset := Dataset(3, "ds", None, Some([]));
      var data := SaveData(None, Some(7), map[], None);
      var save := SaveLinkedDataset(document, dataset, V2, data);
      && save.Saved?
      && DocumentParameters.GetLinkedDataset(ApplyUpdate(document, save.update), localInputs, V2) == EmptyLinkedDatasetRow
      && DocumentParameters.GetLinkedDatasetForVersion(ApplyUpdate(document, save.update), localInputs, V2)
         == LinkedData(None, map[], None, Some(7))
  {
    var document := DocumentVersion(1, "doc", None, Some(3), None, None);
    var dataset := Dataset(3, "ds", None, Some([]));
    var data := SaveData(None, Some(7), map[], None);
    SaveThenGetLinkedDataset(document, dataset, V2, data, localInputs);
  }

  /** The as-written V2 save carries the V1 column's entries into the V2
      column and drops the V2 column's own entries. */
  lemma AsWrittenV2SaveStartsFromV1Column(document: DocumentVersion, dataset: Dataset, data: SaveData)
    requires data.datasetRowId.Some?
    ensures var r := SaveLinkedDatasetAsWritten(document, dataset, V2, data);
      && r.Saved? && r.update.SetLinkedDatasetAndRow?
      && r.update.column.Keys == document.linkedDataset.GetOr(map[]).Keys + {dataset.id}
  {
  }

  /** A concrete document on which the as-written and the corrected service
      write different V2 columns: entry 2 of the V2 column is lost and entry
      1 of the V1 column leaks in. */
  lemma AsWrittenLosesV2Entries()
    ensures var document := DocumentVersion(1, "doc", Some(3), None,
                                            Some(map[1 := EmptyLinkedDataset]),
                                            Some(map[2 := EmptyLinkedDatasetRow]));
      var dataset := Dataset(3, "ds", None, Some([]));
      var data := SaveData(None, Some(7), map[], None);
      var asWritten := SaveLinkedDatasetAsWritten(document, dataset, V2, data);
      var corrected := SaveLinkedDataset(document, dataset, V2, data);
      && asWritten.Saved? && corrected.Saved?
      && 1 in asWritten.update.column && 2 !in asWritten.update.column
      && 2 in corrected.update.column && 1 !in corrected.update.column
  {
  }
}

=== FILE: messages.dfy ===
/** Chat messages as the compiler package declares them: a role and either a
    plain string or a list of typed content parts. Provider metadata is the
    AI SDK's `experimental_providerMetadata`: provider key to a metadata
    object. */
module Messages {
  import opened Wrappers
  import opened Json

  datatype Role = System | User | Assistant | Tool

  datatype ContentType = TextContent | ImageContent | FileContent | ToolCallContent | ToolResultContent

  /** One provider's metadata object. */
  type Metadata = map<string, Json>

  /** Provider key to metadata object. */
  type ProviderMetadata = map<string, Metadata>

  /** A content part: its type, its type-specific fields (`text`, `image`,
      `toolCallId`, ...) and its provider metadata, if any. */
  datatype ContentPart = ContentPart(
    kind: ContentType,
    fields: map<string, Json>,
    providerMetadata: Option<ProviderMetadata>)

  datatype Content = Text(text: string) | Parts(parts: seq<ContentPart>)

  /** A message: role, content, provider metadata and its remaining fields. */
  datatype Message = Message(
    role: Role,
    content: Content,
    providerMetadata: Option<ProviderMetadata>,
    fields: map<string, Json>)

  /** `{ type: 'text', text }` */
  function TextPart(text: string): ContentPart
  {
    ContentPart(TextContent, map["text" := Str(text)], None)
  }
}

=== FILE: provider_logs.dfy ===
/** The provider-log record built from a chain step, and the response a
    provider log shows. The clock readings (`Date.now()`, `new Date()`) and
    the generated UUID are parameters. */
module ProviderLogs {
  import opened Wrappers
  import opened Json
  import opened Messages
  import opened Adapters
  import opened ProviderProcessor

  datatype Workspace = Workspace(id: int)

  datatype ProviderApiKey = ProviderApiKey(id: int, provider: Provider)

  /** A compiled conversation: its front-matter config and its messages. */
  datatype Conversation = Conversation(config: map<string, Json>, messages: seq<Message>)

  /** The `LogSources` member the log records, by name. */
  type LogSource = string

  /** A provider log. Fields that are `undefined` in the record are `None`,
      or `Undefined` for the response object. */
  datatype ProviderLog = ProviderLog(
    uuid: string,
    workspaceId: int,
    source: LogSource,
    providerId: int,
    providerType: Provider,
    documentLogUuid: Option<string>,
    duration: int,
    generatedAt: int,
    model: Json,
    config: map<string, Json>,
    messages: seq<Message>,
    output: Option<seq<Json>>,
    usage: Usage,
    responseObject: Json,
    responseText: Option<string>,
    toolCalls: seq<ToolCall>)

  function BuildProviderLogDto(
    workspace: Workspace,
    source: LogSource,
    provider: ProviderApiKey,
    conversation: Conversation,
    stepStartTime: int,
    errorableUuid: Option<string>,
    response: ChainStepResponse,
    uuid: string,
    now: int,
    generatedAt: int): (log: ProviderLog)
    ensures log.uuid == uuid && log.generatedAt == generatedAt
    ensures log.duration == now - stepStartTime
    ensures log.workspaceId == workspace.id && log.source == source
    ensures log.providerId == provider.id && log.providerType == provider.provider
    ensures log.documentLogUuid == errorableUuid
    ensures log.model == Get(conversation.config, "model")
    ensures log.config == conversation.config && log.messages == conversation.messages
    ensures log.usage == response.usage
    ensures response.TextResponse? ==>
      && log.output == Some(response.output)
      && log.responseText == Some(response.text)
      && log.toolCalls == response.toolCalls
      && log.responseObject == Undefined
    ensures response.ObjectResponse? ==>
      && log.output.None?
      && log.responseText.None?
      && log.toolCalls == []
      && log.responseObject == response.obj
  {
    var isText := response.StreamType() == TextStream;
    ProviderLog(
      uuid,
      workspace.id,
      source,
      provider.id,
      provider.provider,
      errorableUuid,
      now - stepStartTime,
      generatedAt,
      Get(conversation.config, "model"),
      conversation.config,
      conversation.messages,
      if isText then Some(response.output) else None,
      response.usage,
      if response.StreamType() == ObjectStream then response.obj else Undefined,
      if isText then Some(response.text) else None,
      if isText then response.toolCalls else [])
  }

  /** What a provider log shows as its response. */
  datatype LogResponse =
    | OutputMessages(messages: seq<Json>)
    | ResponseText(text: string)
    | ResponseObject(obj: Json)
    | NoResponse

  /** The response a log shows: its output messages when present, even an
      empty list; otherwise its text when non-empty; otherwise its response
      object when truthy, and null when not. */
  function BuildProviderLogResponse(log: ProviderLog): (r: LogResponse)
    ensures log.output.Some? ==> r == OutputMessages(log.output.value)
    ensures log.output.None? && log.responseText.Some? && |log.responseText.value| > 0 ==>
      r == ResponseText(log.responseText.value)
    ensures log.output.None? && (log.responseText.None? || |log.responseText.value| == 0) ==>
      (r == ResponseObject(log.responseObject) <==> Truthy(log.responseObject))
    ensures r == NoResponse <==>
      log.output.None? && (log.responseText.None? || |log.responseText.value| == 0) && !Truthy(log.responseObject)
  {
    if log.output.Some? then OutputMessages(log.output.value)
    else if log.responseText.Some? && log.responseText.value != "" then ResponseText(log.responseText.value)
    else if Truthy(log.responseObject) then ResponseObject(log.responseObject)
    else NoResponse
  }

  /** From AI result to shown response: a text result always shows its
      response messages (possibly none), never its text; an object result
      shows the object when it is truthy and nothing otherwise. */
  lemma ResponseOfAStep(
    aiResult: AiResult,
    errorableUuid: Option<string>,
    objectToString: Json -> string,
    workspace: Workspace,
    source: LogSource,
    provider: ProviderApiKey,
    conversation: Conversation,
    stepStartTime: int,
    uuid: string,
    now: int,
    generatedAt: int)
    ensures var step := BuildChainStepResponse(aiResult, errorableUuid, objectToString);
      var log := BuildProviderLogDto(workspace, source, provider, conversation, stepStartTime,
                                     errorableUuid, step, uuid, now, generatedAt);
      && (aiResult.TextResult? ==>
            BuildProviderLogResponse(log) == OutputMessages(aiResult.response.messages.GetOr([])))
      && (aiResult.ObjectResult? && Truthy(aiResult.obj) ==>
            BuildProviderLogResponse(log) == ResponseObject(aiResult.obj))
      && (aiResult.ObjectResult? && !Truthy(aiResult.obj) ==>
            BuildProviderLogResponse(log) == NoResponse)
  {
  }
}

=== FILE: provider_processor.dfy ===
/** The chain-step response built from a resolved AI SDK result: a text
    result keeps the text, the response messages and the tool calls; an
    object result keeps the object and its text rendering. Awaited fields are
    given values; `objectToString` is a parameter. */
module ProviderProcessor {
  import opened Wrappers
  import opened Json

  datatype StreamType = TextStream | ObjectStream

  datatype Usage = Usage(promptTokens: int, completionTokens: int, totalTokens: int)

  /** A tool call as the AI SDK reports it. */
  datatype AiToolCall = AiToolCall(toolCallId: string, toolName: string, args: map<string, Json>)

  /** A tool call as the chain records it. */
  datatype ToolCall = ToolCall(id: string, name: string, arguments: map<string, Json>)

  /** The SDK's response metadata; `messages` may be absent. */
  datatype ResponseMetadata = ResponseMetadata(id: string, modelId: string, messages: Option<seq<Json>>)

  /** A resolved `AIReturn`: `type: 'text'` or `type: 'object'`. */
  datatype AiResult =
    | TextResult(text: string, usage: Usage, response: ResponseMetadata, toolCalls: seq<AiToolCall>)
    | ObjectResult(obj: Json, usage: Usage)

  datatype ChainStepResponse =
    | TextResponse(
        documentLogUuid: Option<string>,
        text: string,
        usage: Usage,
        output: seq<Json>,
        toolCalls: seq<ToolCall>)
    | ObjectResponse(
        documentLogUuid: Option<string>,
        usage: Usage,
        text: string,
        obj: Json)
  {
    function StreamType(): StreamType
    {
      if TextResponse? then TextStream else ObjectStream
    }
  }

  function TypeOf(aiResult: AiResult): StreamType
  {
    if aiResult.TextResult? then TextStream else ObjectStream
  }

  /** Each SDK tool call renamed to the chain's shape, in order: the call id
      becomes `id`, the tool name `name` and the arguments `arguments`. */
  function ConvertToolCalls(calls: seq<AiToolCall>): (converted: seq<ToolCall>)
    ensures |converted| == |calls|
    ensures forall i :: 0 <= i < |calls| ==>
      && converted[i].id == calls[i].toolCallId
      && converted[i].name == calls[i].toolName
      && converted[i].arguments == calls[i].args
  {
    if |calls| == 0 then []
    else [ToolCall(calls[0].toolCallId, calls[0].toolName, calls[0].args)] + ConvertToolCalls(calls[1..])
  }

  function BuildStepTextResponse(aiResult: AiResult, errorableUuid: Option<string>): (r: ChainStepResponse)
    requires aiResult.TextResult?
    ensures r.TextResponse? && r.StreamType() == TypeOf(aiResult)
    ensures r.documentLogUuid == errorableUuid && r.usage == aiResult.usage && r.text == aiResult.text
    ensures r.output == aiResult.response.messages.GetOr([])
    ensures |r.toolCalls| == |aiResult.toolCalls|
    ensures forall i :: 0 <= i < |r.toolCalls| ==>
      r.toolCalls[i] == ToolCall(aiResult.toolCalls[i].toolCallId, aiResult.toolCalls[i].toolName,
                                 aiResult.toolCalls[i].args)
  {
    TextResponse(
      errorableUuid,
      aiResult.text,
      aiResult.usage,
      if aiResult.response.messages.Some? then aiResult.response.messages.value else [],
      ConvertToolCalls(aiResult.toolCalls))
  }

  function BuildObjectStepResponse(
    aiResult: AiResult,
    errorableUuid: Option<string>,
    objectToString: Json -> string): (r: ChainStepResponse)
    requires aiResult.ObjectResult?
    ensures r.ObjectResponse? && r.StreamType() == TypeOf(aiResult)
    ensures r.documentLogUuid == errorableUuid && r.usage == aiResult.usage
    ensures r.obj == aiResult.obj && r.text == objectToString(aiResult.obj)
  {
    ObjectResponse(errorableUuid, aiResult.usage, objectToString(aiResult.obj), aiResult.obj)
  }

  function BuildChainStepResponse(
    aiResult: AiResult,
    errorableUuid: Option<string>,
    objectToString: Json -> string): (r: ChainStepResponse)
    ensures r.StreamType() == TypeOf(aiResult)
    ensures r.documentLogUuid == errorableUuid && r.usage == aiResult.usage
    ensures aiResult.TextResult? ==> r == BuildStepTextResponse(aiResult, errorableUuid)
    ensures aiResult.ObjectResult? ==> r == BuildObjectStepResponse(aiResult, errorableUuid, objectToString)
  {
    if aiResult.TextResult? then BuildStepTextResponse(aiResult, errorableUuid)
    else BuildObjectStepResponse(aiResult, errorableUuid, objectToString)
  }
}

=== FILE: transaction.dfy ===
/** The transaction wrapper: classification of a thrown database error into
    an error result, and the rule that registered side effects run only when
    the outermost transaction completes. The database transaction itself is
    abstracted as the outcome of the callback. */
module Transaction {
  import opened Wrappers
  import opened Json

  const UniqueViolation := "23505"
  const InputSyntaxError := "22P02"

  /** Whatever was thrown: its `code` property, if any, and its message. */
  datatype Thrown = Thrown(code: Option<string>, message: string)

  datatype AppError =
    | ConflictError(message: string)
    | UnprocessableEntityError(message: string, details: map<string, Json>)
    | OriginalError(error: Thrown)

  datatype TypedResult<T> = Ok(value: T) | Error(error: AppError)

  /** The error a thrown value becomes; the caller wraps it as
      `Result.error(...)`. Only the two known codes are translated. */
  function ToResultError(error: Thrown): (e: AppError)
    ensures e.ConflictError? <==> error.code == Some(UniqueViolation)
    ensures e.UnprocessableEntityError? <==> error.code == Some(InputSyntaxError)
    ensures e.ConflictError? ==> e.message == error.message
    ensures e.UnprocessableEntityError? ==> e == UnprocessableEntityError("Invalid input", map[])
    ensures e.OriginalError? ==> e.error == error
  {
    match error.code
    case Some(c) =>
      if c == UniqueViolation then ConflictError(error.message)
      else if c == InputSyntaxError then UnprocessableEntityError("Invalid input", map[])
      else OriginalError(error)
    case None => OriginalError(error)
  }

  /** A registered side effect, by identity. */
  type SideEffect = nat

  /** How the callback ran inside the database transaction: it returned a
      result after registering more side effects on the shared list, or
      something threw. */
  datatype CallbackOutcome<T> =
    | Completed(result: TypedResult<T>, registered: seq<SideEffect>)
    | Threw(error: Thrown)

  /** One side-effect invocation and the result it received. */
  datatype Firing<T> = Firing(effect: SideEffect, argument: TypedResult<T>)

  /** The side effects that were invoked, in order, and what the last of
      them threw, if it threw. */
  datatype Fired<T> = Fired(fired: seq<Firing<T>>, thrown: Option<Thrown>)

  datatype CallResult<T> = CallResult(result: TypedResult<T>, fired: seq<Firing<T>>)

  /** Runs the side effects in list order, each with the result. A side effect
      that throws ends the run: the ones after it are never invoked.
      `throws(e, result)` is what side effect `e` throws when handed `result`. */
  function FireAll<T>(
    effects: seq<SideEffect>,
    result: TypedResult<T>,
    throws: (SideEffect, TypedResult<T>) -> Option<Thrown>): (r: Fired<T>)
    ensures |r.fired| <= |effects|
    ensures forall i :: 0 <= i < |r.fired| ==> r.fired[i] == Firing(effects[i], result)
    ensures r.thrown.None? <==> forall i :: 0 <= i < |effects| ==> throws(effects[i], result).None?
    ensures r.thrown.None? ==> |r.fired| == |effects|
    ensures r.thrown.Some? ==>
      && 0 < |r.fired|
      && r.thrown == throws(effects[|r.fired| - 1], result)
      && forall i :: 0 <= i < |r.fired| - 1 ==> throws(effects[i], result).None?
  {
    if |effects| == 0 then Fired([], None)
    else
      var here := Firing(effects[0], result);
      match throws(effects[0], result)
      case Some(e) => Fired([here], Some(e))
      case None =>
        var rest := FireAll(effects[1..], result, throws);
        Fired([here] + rest.fired, rest.thrown)
  }

  /** The end of the outermost call, after the database transaction has
      committed with `result`: the side effects run inside the `try`, so one
      that throws stops the rest and replaces the result with its
      classified error. */
  function RunSideEffects<T>(
    all: seq<SideEffect>,
    result: TypedResult<T>,
    throws: (SideEffect, TypedResult<T>) -> Option<Thrown>): (r: CallResult<T>)
    ensures |r.fired| <= |all|
    ensures forall i :: 0 <= i < |r.fired| ==> r.fired[i] == Firing(all[i], result)
    ensures (forall i :: 0 <= i < |all| ==> throws(all[i], result).None?) ==>
      r.result == result && |r.fired| == |all|
    ensures (exists i :: 0 <= i < |all| && throws(all[i], result).Some?) ==>
      && 0 < |r.fired|
      && throws(all[|r.fired| - 1], result).Some?
      && (forall i :: 0 <= i < |r.fired| - 1 ==> throws(all[i], result).None?)
      && r.result == Error(ToResultError(throws(all[|r.fired| - 1], result).value))
  {
    var run := FireAll(all, result, throws);
    match run.thrown
    case None => CallResult(result, run.fired)
    case Some(e) => CallResult(Error(ToResultError(e)), run.fired)
  }

  /** `Transaction.call`. `depth` and `sideEffects` default to 1 and [] when
      undefined; the callback is handed the same depth and list. Only the
      call that brings the depth to 0 runs the side effects. */
  function Call<T>(
    callback: (int, seq<SideEffect>) -> CallbackOutcome<T>,
    throws: (SideEffect, TypedResult<T>) -> Option<Thrown>,
    depth: Option<int>,
    sideEffects: Option<seq<SideEffect>>): (r: CallResult<T>)
    ensures var d := depth.GetOr(1);
      var effects := sideEffects.GetOr([]);
      match callback(d, effects)
      case Threw(e) => r.result == Error(ToResultError(e)) && r.fired == []
      case Completed(result, registered) =>
        && (d - 1 != 0 ==> r.result == result && r.fired == [])
        && (d - 1 == 0 ==> r == RunSideEffects(effects + registered, result, throws))
  {
    var d := depth.GetOr(1);
    var effects := sideEffects.GetOr([]);
    match callback(d, effects)
    case Threw(e) => CallResult(Error(ToResultError(e)), [])
    case Completed(result, registered) =>
      if d - 1 != 0 then CallResult(result, [])
      else RunSideEffects(effects + registered, result, throws)
  }

  /** A call made at depth 2 fires nothing; when no side effect throws, a
      call made at depth 1 fires each side effect on the list, including the
      ones its callback registered, all with its result, and returns that
      result. */
  lemma OnlyOutermostFires<T>(
    inner: (int, seq<SideEffect>) -> CallbackOutcome<T>,
    outer: (int, seq<SideEffect>) -> CallbackOutcome<T>,
    throws: (SideEffect, TypedResult<T>) -> Option<Thrown>,
    effects: seq<SideEffect>,
    e: SideEffect)
    requires inner(2, effects).Completed? && outer(1, effects).Completed?
    requires forall x :: throws(x, outer(1, effects).result).None?
    requires e in effects + outer(1, effects).registered
    ensures Call(inner, throws, Some(2), Some(effects)).fired == []
    ensures Call(outer, throws, Some(1), Some(effects)).result == outer(1, effects).result
    ensures Firing(e, outer(1, effects).result) in Call(outer, throws, Some(1), Some(effects)).fired
  {
    var all := effects + outer(1, effects).registered;
    var i :| 0 <= i < |all| && all[i] == e;
    assert Call(outer, throws, Some(1), Some(effects)).fired[i] == Firing(e, outer(1, effects).result);
  }

  /** A side effect that throws in the outermost transaction turns the
      already committed result into its classified error, and the side
      effects after it never run. */
  lemma ThrowingSideEffectStopsTheRest<T>(
    callback: (int, seq<SideEffect>) -> CallbackOutcome<T>,
    throws: (SideEffect, TypedResult<T>) -> Option<Thrown>,
    effects: seq<SideEffect>,
    k: nat)
    requires callback(1, effects).Completed?
    requires var out := callback(1, effects);
      var all := effects + out.registered;
      && k < |all|
      && throws(all[k], out.result).Some?
      && forall i :: 0 <= i < k ==> throws(all[i], out.result).None?
    ensures var out := callback(1, effects);
      var all := effects + out.registered;
      var r := Call(callback, throws, Some(1), Some(effects));
      && r.result == Error(ToResultError(throws(all[k], out.result).value))
      && |r.fired| == k + 1
  {
    var out := callback(1, effects);
    var all := effects + out.registered;
    var run := FireAll(all, out.result, throws);
    assert run.thrown.Some?;
  }
}

=== FILE: vercel_rules.dfy ===
/** The Vercel AI SDK provider rules: every message's content becomes a list
    of parts, and the message-level provider metadata is pushed down into each
    part. `extractMessageMetadata`, `extractContentMetadata` and
    `getProviderMetadataKey` are given as parameters (`extractMessage`,
    `extractContent`, `key`). */
module VercelRules {
  import opened Wrappers
  import opened Json
  import opened Messages

  /** The metadata stored under the provider key, or an empty object when
      there is none. */
  function MetaAt(metadata: ProviderMetadata, key: string): Metadata
  {
    if key in metadata then metadata[key] else map[]
  }

  /** One extracted part when the message has metadata: under the provider
      key, the message metadata overlaid by the part's own. */
  function MergePart(extracted: ContentPart, key: string, messageMetadata: ProviderMetadata): ContentPart
  {
    var contentMetadata := extracted.providerMetadata.GetOr(map[]);
    extracted.(providerMetadata := Some(map[key := MetaAt(messageMetadata, key) + MetaAt(contentMetadata, key)]))
  }

  function GroupContentMetadata(
    content: Content,
    key: string,
    extractContent: ContentPart -> ContentPart,
    messageMetadata: Option<ProviderMetadata>): (parts: seq<ContentPart>)
    // String content: one text part, carrying the message metadata verbatim.
    ensures content.Text? ==> |parts| == 1 && parts[0].kind == TextContent
    ensures content.Text? ==> parts[0].fields == map["text" := Str(content.text)]
    ensures content.Text? ==> parts[0].providerMetadata == messageMetadata
    // Array content: one part per item, in order.
    ensures content.Parts? ==> |parts| == |content.parts|
    ensures content.Parts? && messageMetadata.None? ==>
      forall i :: 0 <= i < |parts| ==> parts[i] == extractContent(content.parts[i])
    ensures content.Parts? && messageMetadata.Some? ==> forall i :: 0 <= i < |parts| ==>
      && parts[i].kind == extractContent(content.parts[i]).kind
      && parts[i].fields == extractContent(content.parts[i]).fields
      && parts[i].providerMetadata.Some?
      && parts[i].providerMetadata.value.Keys == {key}
    ensures content.Parts? && messageMetadata.Some? ==> forall i :: 0 <= i < |parts| ==>
      var own := MetaAt(extractContent(content.parts[i]).providerMetadata.GetOr(map[]), key);
      var merged := parts[i].providerMetadata.value[key];
      && merged.Keys == MetaAt(messageMetadata.value, key).Keys + own.Keys
      && (forall f :: f in own ==> merged[f] == own[f])
      && (forall f :: f in MetaAt(messageMetadata.value, key) && f !in own ==>
            merged[f] == MetaAt(messageMetadata.value, key)[f])
  {
    match content
    case Text(s) =>
      if messageMetadata.None? then [TextPart(s)]
      else [TextPart(s).(providerMetadata := messageMetadata)]
    case Parts(items) =>
      seq(|items|, i requires 0 <= i < |items| =>
        if messageMetadata.None? then extractContent(items[i])
        else MergePart(extractContent(items[i]), key, messageMetadata.value))
  }

  /** String content keeps every provider key of the message metadata,
      while array content keeps only the current provider's: both agree on
      that provider's metadata. */
  lemma StringAndArrayAgreeOnProviderKey(
    text: string,
    key: string,
    extractContent: ContentPart -> ContentPart,
    messageMetadata: ProviderMetadata)
    requires extractContent(TextPart(text)) == TextPart(text)
    ensures var fromString := GroupContentMetadata(Text(text), key, extractContent, Some(messageMetadata));
      var fromArray := GroupContentMetadata(Parts([TextPart(text)]), key, extractContent, Some(messageMetadata));
      && fromString[0].fields == fromArray[0].fields
      && MetaAt(fromString[0].providerMetadata.value, key) == MetaAt(messageMetadata, key)
      && MetaAt(fromArray[0].providerMetadata.value, key) == MetaAt(messageMetadata, key)
  {
    var fromArray := GroupContentMetadata(Parts([TextPart(text)]), key, extractContent, Some(messageMetadata));
    assert fromArray[0] == MergePart(TextPart(text), key, messageMetadata);
    assert MetaAt(messageMetadata, key) + map[] == MetaAt(messageMetadata, key);
  }

  /** Merging the message metadata into a part that already went through the
      merge changes nothing. */
  lemma MergePartIsIdempotent(part: ContentPart, key: string, messageMetadata: ProviderMetadata)
    ensures MergePart(MergePart(part, key, messageMetadata), key, messageMetadata)
         == MergePart(part, key, messageMetadata)
  {
    var m := MetaAt(messageMetadata, key);
    var c := MetaAt(part.providerMetadata.GetOr(map[]), key);
    assert m + (m + c) == m + c;
  }

  /** `AppliedRules`: the rules raised so far, the messages and the config. */
  datatype AppliedRules = AppliedRules(
    rules: seq<Json>,
    messages: seq<Message>,
    config: map<string, Json>)

  /** The message produced from one input message. */
  function ApplyToMessage(
    message: Message,
    key: string,
    extractMessage: Message -> Message,
    extractContent: ContentPart -> ContentPart): Message
  {
    var msg := extractMessage(message);
    msg.(content := Parts(GroupContentMetadata(msg.content, key, extractContent, msg.providerMetadata)))
  }

  function VercelSdkRules(
    rules: AppliedRules,
    key: string,
    extractMessage: Message -> Message,
    extractContent: ContentPart -> ContentPart): (r: AppliedRules)
    ensures r.rules == rules.rules && r.config == rules.config
    ensures |r.messages| == |rules.messages|
    ensures forall i :: 0 <= i < |rules.messages| ==>
      var msg := extractMessage(rules.messages[i]);
      && r.messages[i].role == msg.role
      && r.messages[i].providerMetadata == msg.providerMetadata
      && r.messages[i].fields == msg.fields
      && r.messages[i].content.Parts?
      && r.messages[i].content.parts == GroupContentMetadata(msg.content, key, extractContent, msg.providerMetadata)
  {
    rules.(messages := seq(|rules.messages|, i requires 0 <= i < |rules.messages| =>
      ApplyToMessage(rules.messages[i], key, extractMessage, extractContent)))
  }
}

=== FILE: versioned_datasets.dfy ===
/** The version-dispatching helpers of the versioned-datasets hook: the
    column list of a dataset, the index of a header in it, and the row count
    to show. A V1 dataset is recognised by its `fileMetadata`. */
module VersionedDatasets {
  import opened Wrappers
  import opened Datasets

  /** The name of each column, in column order. */
  function ColumnNames(columns: seq<Column>): (names: seq<string>)
    ensures |names| == |columns|
    ensures forall i :: 0 <= i < |columns| ==> names[i] == columns[i].name
  {
    if |columns| == 0 then [] else [columns[0].name] + ColumnNames(columns[1..])
  }

  function BuildColumnList(dataset: Option<Dataset>): (headers: seq<string>)
    ensures dataset.None? ==> headers == []
    ensures dataset.Some? && dataset.value.fileMetadata.Some? ==>
      headers == dataset.value.fileMetadata.value.headers
    ensures dataset.Some? && dataset.value.fileMetadata.None? && dataset.value.columns.Some? ==>
      && |headers| == |dataset.value.columns.value|
      && forall i :: 0 <= i < |headers| ==> headers[i] == dataset.value.columns.value[i].name
    ensures dataset.Some? && dataset.value.fileMetadata.None? && dataset.value.columns.None? ==>
      headers == []
  {
    match dataset
    case None => []
    case Some(d) =>
      if d.fileMetadata.Some? then d.fileMetadata.value.headers
      else if d.columns.Some? then ColumnNames(d.columns.value)
      else []
  }

  /** The first position holding the header, or nothing when no column
      has it. */
  function GetColumnIndex(columns: seq<string>, header: string): (index: Option<nat>)
    ensures index.None? <==> header !in columns
    ensures index.Some? ==>
      && index.value < |columns|
      && columns[index.value] == header
      && forall j :: 0 <= j < index.value ==> columns[j] != header
  {
    if |columns| == 0 then None
    else if columns[0] == header then Some(0)
    else
      match GetColumnIndex(columns[1..], header)
      case None => None
      case Some(i) => Some(i + 1)
  }

  /** If position i holds the header and no earlier position does, the
      index returned is i. */
  lemma FirstOccurrenceIsReturned(columns: seq<string>, header: string, i: nat)
    requires i < |columns| && columns[i] == header
    requires forall j :: 0 <= j < i ==> columns[j] != header
    ensures GetColumnIndex(columns, header) == Some(i)
  {
  }

  function GetDatasetCount(dataset: Option<Dataset>, datasetRowsCount: Option<int>): (count: Option<int>)
    ensures dataset.None? ==> count.None?
    ensures dataset.Some? && dataset.value.fileMetadata.Some? ==>
      count == Some(dataset.value.fileMetadata.value.rowCount)
    ensures dataset.Some? && dataset.value.fileMetadata.None? ==> count == datasetRowsCount
  {
    match dataset
    case None => None
    case Some(d) =>
      if d.fileMetadata.Some? then Some(d.fileMetadata.value.rowCount) else datasetRowsCount
  }
}

=== FILE: wrappers.dfy ===
/** Optional values. `None` stands for JavaScript's `undefined`/`null` or for
    an object key that is absent. */
module Wrappers {

  datatype Option<+T> = None | Some(value: T) {

    /** `x ?? default` */
    function GetOr(default: T): T
    {
      match this
      case Some(v) => v
      case None => default
    }
  }
}
